=== FILE: README.md ===
# Real-estate price dashboard: verified model of its metric logic

The dashboard works on one spreadsheet of real-estate listings in Ho Chi Minh City
Districts 1 and 5. Each listing has a government land price, a market reference price,
a price gap, a fake-probability signal, a risk score and coordinates. This project
models the three parts of the dashboard that compute something, as pure Dafny
functions over `real` values and sequences of rows:

- **Tax and fee estimates** (`tax.dfy`, module `Tax`). These are the registration fee,
  the simplified non-agricultural land tax and the transfer income tax. Each has its
  default rate. The transfer tax converts billion VND into million VND.
- **Price Lookup metrics** (`price_lookup.dfy`, module `PriceLookup`). The sheet is
  narrowed to one district, then one ward, then one street. The model takes the medians
  of the government and market-reference prices, derives the price gap, and prefers the
  corrected gap. An undefined gap is carried through the normalised gap and the risk
  score.
- **Map weights and street ranking** (`map_page.dfy`, module `MapPage`). Rows without
  coordinates are dropped, and the model applies the "All"/district filter. It computes
  the clipped map weight and the top-30 street table, grouped by (District, Ward,
  Street).

Supporting modules:

- `values.dfy` (`Values`): spreadsheet cells and the scalars pandas derives from them.
  A `Value` is `None`, `NaN` or `Num(v)`. `None` (a column that is not there) and `NaN`
  (a median over no numbers) stay distinct, because the page tests `is not None`, and
  that test holds of NaN.
- `listings.dfy` (`Listings`): the listing record, the sheet and column helpers.
- `stats.dfy` (`Stats`): pandas-style `median` and `mean`, both skipping NaN.
- `sorting.dfy` (`Sorting`): a stable insertion sort under a total preorder.
- `seqs.dfy` (`Seqs`): filtering, counting, `head(n)` and substring search.

The scoring functions `normalize_gap`, `risk_score` and `risk_level` are imported by the
Price Lookup page, but their definitions are not part of this model. They enter as the
three fields of a `Scorer` value and stay uninterpreted. The way numbers are rendered as
text by `astype(str)` is also a parameter, `show`.

Two behaviours of the code are easy to misread:

- The corrected government price is not a per-row override. When the corrected column
  exists, only that column is used, for every row, and a street with no corrected value
  gets NaN even if its raw prices are present (`PriceLookup.NoPerRowFallback`).
- The transfer tax function has no "not provided" result: a price of 0 gives 0.

## Model

| member | source | states |
|---|---|---|
| Tax.RegistrationFeeLand | utils/tax.py:1-5 | The fee is non-negative for non-negative inputs. It is zero exactly when the area, the price or the rate is zero. Dividing by area × rate recovers the government price. |
| Tax.NonAgriLandTax | utils/tax.py:7-12 | The land tax has the same sign and zero behaviour as the fee. Dividing by area × rate recovers the price. |
| Tax.PitTransferTax | utils/tax.py:14-18 | The tax is non-negative for a non-negative price and rate. It is zero exactly when the price or the rate is zero. Dividing by the rate and then by 1000 recovers the price in billion VND. |
| Tax.BillionsToMillions | utils/tax.py:18 | The conversion is undone by dividing by 1000. |
| Tax.SameFormula | utils/tax.py:5-12 | With the same rate argument, the registration fee and the land tax are equal. |
| Tax.DefaultRateExamples | utils/tax.py:1-18 | At the default rates, area 80 and price 50 give a fee of 20.0 and a land tax of 1.2. A transfer of 2.0 billion gives 40.0, and a transfer of 0 gives 0. |
| Tax.RegistrationFeeLinearInArea | utils/tax.py:5 | For a non-negative price and rate, the fee does not decrease as the area grows. It scales linearly with the area and is additive in it. |
| Tax.LandTaxLinearInArea | utils/tax.py:12 | The land tax has the same monotonicity, scaling and additivity in the area. |
| Seqs.Filter | pages/1_Price_Lookup.py:16 | Boolean-mask selection keeps exactly the rows that satisfy the mask. Each row keeps its multiplicity, and no row is added. |
| Listings.AsText | pages/1_Price_Lookup.py:16 | `astype(str)` renders text as it is, a missing cell as "nan", and a number as `show` renders it. |
| Listings.Matches | pages/1_Price_Lookup.py:22-28 | pandas `==` between a cell and the selected value: a missing cell matches nothing. |
| Listings.MatchesIsEqualityOfPresentCells | pages/1_Price_Lookup.py:22-28 | The match is symmetric. A cell matches itself exactly when it is present, and a missing cell or a missing selection matches nothing. |
| Seqs.ContainsIffOccurs | pages/1_Price_Lookup.py:16 | The district test succeeds exactly when the code occurs somewhere in the district text. |
| PriceLookup.SelectRows | pages/1_Price_Lookup.py:16-28 | A row survives the cascade exactly when its district text contains the code and its ward and street equal the selected ones. Surviving rows keep their multiplicity. |
| PriceLookup.CascadeIsOneFilter | pages/1_Price_Lookup.py:16-28 | The three successive filters equal one filter on the conjunction, so row order is kept. |
| PriceLookup.Options | pages/1_Price_Lookup.py:18-24 | A select box offers each distinct non-missing value that occurs in the column, and nothing else. |
| PriceLookup.OfferedChoicesLeaveRows | pages/1_Price_Lookup.py:18-28 | Picking a ward from the district's options and then a street from that ward's options always leaves at least one row. |
| PriceLookup.MissingChoiceLeavesNothing | pages/1_Price_Lookup.py:20-28 | A `None` ward or street selection, as an empty select box gives, matches no row. |
| PriceLookup.GovCell | pages/1_Price_Lookup.py:35-38 | The government column in use is the corrected one whenever it exists, for every row, and the raw one otherwise. |
| PriceLookup.GovMedian | pages/1_Price_Lookup.py:35-38 | The government median is NaN exactly when no selected row has a number in the column in use. |
| PriceLookup.NoPerRowFallback | pages/1_Price_Lookup.py:35-38 | When the corrected column exists and is empty for the street, the median is NaN. The raw prices are not used as a fallback. |
| PriceLookup.RawGovIgnoredWhenCorrected | pages/1_Price_Lookup.py:38 | When the corrected column exists, the raw government column has no influence on the median. |
| PriceLookup.GovMedianPositive | pages/1_Price_Lookup.py:38 | If some row has a number in the column in use and all such numbers are positive, the median is a positive number. |
| PriceLookup.MrefMedian | pages/1_Price_Lookup.py:39 | The market-reference median is NaN exactly when no selected row has a numeric market reference. |
| PriceLookup.FakeMedian | pages/1_Price_Lookup.py:46 | The fake-probability median is NaN exactly when no selected row has a numeric fake probability. |
| PriceLookup.PriceGap | pages/1_Price_Lookup.py:41 | The gap is a number exactly when both medians are numbers and the government median is not 0. It is `None` otherwise, never NaN. A defined gap times the government median gives the market reference. |
| PriceLookup.CorrectedGapMedian | pages/1_Price_Lookup.py:36-42 | `gap2` is `None` exactly when the corrected-gap column is absent. It is NaN exactly when the column exists but holds no number for the street. |
| PriceLookup.ScoreInput | pages/1_Price_Lookup.py:48 | The score input is `None` only when both gaps are `None`. It is NaN whenever `gap2` is NaN. A numeric input is `gap2`, or `gap` when `gap2` is `None`. |
| PriceLookup.NormalizedGap | pages/1_Price_Lookup.py:49 | A `None` score input gives a `None` normalised gap. Any other input is passed to `normalize_gap`. |
| PriceLookup.Risk | pages/1_Price_Lookup.py:51 | A `None` normalised gap gives a `None` risk. Otherwise the risk is `risk_score` of the fake median, the normalised gap and the weight. |
| PriceLookup.GapDisplayOf | pages/1_Price_Lookup.py:57 | The metric shows the corrected value whenever `gap2` is not `None`, then the recomputed gap, then "N/A". A shown value is the score input. |
| PriceLookup.Lookup | pages/1_Price_Lookup.py:16-57 | This is the whole page. Its rows are the cascade's result, and the government, market-reference, corrected-gap and fake-probability medians are taken over them. `gap` follows from the first two medians. `gap2` is `None` exactly when the column is absent. The score input prefers `gap2` whenever it is not `None`. A score input other than `None` goes to `normalize_gap`, and `None` propagates into `s_gap` and the risk. The risk is `risk_score` of the fake median, `s_gap` and the weight. The display is "N/A" exactly when the score input is `None`. |
| PriceLookup.GapDefinedForPositivePrices | pages/1_Price_Lookup.py:35-41 | A street with a market reference and only positive government prices (at least one) always gets a defined gap. |
| PriceLookup.NaNCorrectedGapShadowsGap | pages/1_Price_Lookup.py:42-57 | As written, an empty corrected-gap column makes NaN the score input and the shown value, even though the recomputed gap is 1.5. |
| PriceLookup.ScoreInputCorrected | pages/1_Price_Lookup.py:48 | The corrected score input is `gap2` when `gap2` is a number, and otherwise falls back to the recomputed `gap`. So it is a number exactly when one of the gaps is, and it is NaN only if `gap` is. |
| PriceLookup.GapDisplayCorrected | pages/1_Price_Lookup.py:57 | The corrected display shows a value exactly when one of the gaps is a number, and every shown value is a number. |
| PriceLookup.Rescore | pages/1_Price_Lookup.py:48-57 | Scoring computed metrics again through the `pd.notna` choice keeps the rows and medians. The new score input is `gap2` when that is a number, and `gap` otherwise. It is never NaN. The metric shows the corrected value exactly when `gap2` is a number, and every shown gap is a number. |
| PriceLookup.LookupCorrected | pages/1_Price_Lookup.py:16-57 | This is the page with the NaN fix. Its rows and medians are those of `Lookup`. The score input is `gap2` when that is a number, and the recomputed `gap` otherwise, so it is never NaN. A score input other than `None` goes to `normalize_gap`, and the risk follows as in `Lookup`. The metric shows the corrected value exactly when `gap2` is a number, and every shown value is a number. |
| PriceLookup.CorrectedUsesRecomputedGap | pages/1_Price_Lookup.py:48-57 | On the same street, the corrected page scores and shows the recomputed gap 1.5. |
| Values.Coerce | pages/1_Price_Lookup.py:38 | Coercion never raises and never gives `None`. A cell becomes a number exactly when it is numeric, keeping its value, and becomes NaN otherwise. |
| Values.NumericValues | pages/1_Price_Lookup.py:38-39 | Coercion followed by NaN-skipping keeps the value of every numeric cell, as often as it occurs, and adds nothing. |
| Stats.Median | pages/1_Price_Lookup.py:38-39 | The median is NaN exactly when there are no numbers to take it over. |
| Stats.MedianOfSorted | pages/1_Price_Lookup.py:38-39 | The median is the middle element of the numbers in ascending order, or the average of the two middle elements for an even count. |
| Values.NonNumericCellIgnored | pages/1_Price_Lookup.py:38-39 | A missing or non-numeric cell anywhere in a column does not change what is aggregated. |
| Listings.MedianOf | pages/1_Price_Lookup.py:38-39 | The median of a coerced column is NaN exactly when no row has a number there. |
| Stats.MedianSplitsValues | pages/1_Price_Lookup.py:38-39 | At least half of the numbers lie at or below the median, and at least half lie at or above it. |
| Stats.MedianBetweenValues | pages/1_Price_Lookup.py:38-39 | The median lies between two of the numbers it is taken over. |
| Stats.MedianWithin | pages/1_Price_Lookup.py:38-39 | Numbers confined to an interval have their median in that interval. |
| Stats.MedianPositive | pages/1_Price_Lookup.py:38-39 | Positive numbers have a positive median. |
| MapPage.WithCoordinates | utils/scoring.py:23-26 | A row is kept for the map exactly when both its latitude and its longitude coerce to numbers. Kept rows keep their multiplicity. |
| MapPage.DistrictFilter | utils/scoring.py:39-40 | "All" keeps every row. Any other choice keeps exactly the rows whose district text contains it. Kept rows keep their multiplicity. |
| MapPage.WeightCell | utils/scoring.py:43-48 | The signal reads the risk score, or the gap column in use. |
| MapPage.Clip | utils/scoring.py:50-54 | Scalar bounds are put in order first. The result lies between them, a value already between them is unchanged, and a value outside becomes the nearer bound. |
| MapPage.ClipReversedBounds | utils/scoring.py:52 | Swapping the two bounds does not change the result, so a negative cap clips to [cap, 0]. |
| MapPage.ClipMonotone | utils/scoring.py:52-54 | Clipping preserves order, for any bounds. |
| MapPage.Weight | utils/scoring.py:48-55 | Risk weights lie in [0, 1]. Gap weights lie between 0 and the cap, whatever the cap's sign. A missing value becomes 0. A value between the bounds is kept as it is, and a value outside them becomes the nearer bound. |
| MapPage.MapPoints | utils/scoring.py:23-55 | There is one point per filtered row, in row order. It carries the row's coordinates and weight. |
| MapPage.MapPointsWellFormed | utils/scoring.py:24-55 | Every point comes from a sheet row with both coordinates, in the chosen district. A risk weight lies in [0, 1], and a gap weight lies between 0 and the cap, whatever the cap's sign. |
| MapPage.GroupKeys | utils/scoring.py:138 | The group keys are exactly the distinct complete (District, Ward, Street) triples that occur. |
| MapPage.Summarize | utils/scoring.py:138-143 | A group's count is the number of rows with its key. Its median gap and mean risk are NaN exactly when no row of the group has a number for them. |
| MapPage.Aggregate | utils/scoring.py:138-143 | There is one summary per distinct complete group key, and each is that key's summary. The summaries follow the order in which the keys first appear in the rows, not pandas' sorted group order; this order only feeds the sort, and the MapPage.Ranking line under "## Left out" explains why no contract depends on it. |
| MapPage.Complete | utils/scoring.py:138 | A key counts only when district, ward and street are all present, as the group-by drops keys with a missing part. |
| MapPage.Ranking | utils/scoring.py:144 | The table has at most 30 rows, or all the groups when there are fewer. |
| MapPage.SortedSummaries | utils/scoring.py:144 | Before the cut, the summaries are a permutation of the groups, in descending order with missing values last. |
| MapPage.RankingSorted | utils/scoring.py:144 | The table is in descending order of the median gap or the mean risk (depending on the signal), with missing values last. |
| MapPage.RankingRowsAreGroups | utils/scoring.py:138-143 | Every table row is a group whose key is complete and occurs in the rows. Its count equals the number of rows with that key and is at least 1. Its aggregates are NaN exactly when the group has no numbers for them. |
| MapPage.RankingKeepsTheTop | utils/scoring.py:144 | A group cut from the table ranks no higher than any group kept. |
| MapPage.RankingCompleteWhenFewGroups | utils/scoring.py:138-144 | With at most 30 groups, every complete key in the rows appears in the table. |
| MapPage.MapRows | utils/scoring.py:23-40 | The rows the page groups are exactly the sheet rows that have both coordinates and pass the district filter, each as often as it occurs in the sheet. |
| MapPage.RankingTable | utils/scoring.py:23-144 | The page's table is the ranking of the rows left after the coordinate drop and the district filter. |
| MapPage.RankingTableCountsLocatedRows | utils/scoring.py:23-144 | Each table row's count is the number of sheet rows with its key that have coordinates and pass the district filter. At least one such row exists. |
| MapPage.GroupsPartitionRows | utils/scoring.py:138-140 | The groups' counts add up to exactly the number of rows with a complete key. |
| MapPage.MeanRiskWithinUnit | utils/scoring.py:142 | If a group's risk scores all lie in [0, 1], so does its mean risk. |
| Listings.GapCell | utils/scoring.py:16 | The gap column in use is the corrected one whenever it exists, and the raw gap otherwise. |
| Listings.MeanOf | utils/scoring.py:142 | The mean of a coerced column is NaN exactly when no row has a number there. |
| Stats.Mean | utils/scoring.py:142 | The mean is NaN exactly when there are no numbers to average. |
| Stats.MeanWithin | utils/scoring.py:142 | Numbers confined to an interval have their mean in that interval. |
| MapPage.BeforeIsTotalPreorder | utils/scoring.py:144 | Descending order with missing values last is a total preorder, for either signal. |
| Sorting.SortBy | utils/scoring.py:144 | Sorting keeps the length and is a permutation of its input. |
| Seqs.Take | utils/scoring.py:144 | `head(n)` is a prefix of at most n elements: all of them when there are no more than n. |
| Sorting.SortBySorted | utils/scoring.py:144 | Under a total preorder, the sort's output is ordered. |

## Findings

| source | as written | input that shows it | evidently intended | confidence | as-written member | corrected member |
|---|---|---|---|---|---|---|
| pages/1_Price_Lookup.py:48 | `gap2 if gap2 is not None else gap` | The sheet has a "Price Gap Corrected" column, but it is empty for the chosen street. The street has government price 50 and market reference 75. `gap2` is NaN and `gap` is 1.5, so NaN is passed to `normalize_gap`. | Fall back to the recomputed gap when `gap2` is not a number (`pd.notna`). | not executed; medium | PriceLookup.NaNCorrectedGapShadowsGap | PriceLookup.ScoreInputCorrected |
| pages/1_Price_Lookup.py:57 | `f"{gap2:.2f}× (corrected)" if gap2 is not None else ...` | The same street: the metric shows "nan× (corrected)" instead of the recomputed 1.50×. | Show the recomputed gap, or "N/A", when `gap2` is not a number. | not executed; medium | PriceLookup.GapDisplayOf | PriceLookup.GapDisplayCorrected |

`PriceLookup.Lookup` is the page as written. `PriceLookup.LookupCorrected` is the page with
both corrections applied.

## Left out

- `normalize_gap`, `risk_score` and `risk_level`: their definitions are not part of this model. They are uninterpreted fields of `Scorer`, so no claim is made about their ranges, thresholds or the `[0, 1]` bound of the risk score.
- Streamlit widgets, layout, captions, warnings (including the `gap2 < 1` notice) and number formatting are presentation only. The gap metric is modelled only as the choice of what it shows.
- pydeck layers, tooltips and view state, and the matplotlib histograms, are presentation only.
- Loading and caching the spreadsheet is I/O. The sheet is given as a `Table`. The columns the pages read with `df[...]` (District, Ward, Street, the government and market-reference prices, fake probability, and on the map page the gap and risk columns aggregated at utils/scoring.py:138-143) are assumed to exist. The `KeyError` pandas raises when one of them is missing is not modelled.
- The map page reads the coordinates (utils/scoring.py:24-25) and the weight column (utils/scoring.py:48) with `dff.get`, which gives `None` for a missing column instead of raising. Coercing `None` gives NaN for every row. So a missing coordinate column drops every row, and a missing weight column makes every weight 0. The model has no separate case for this: a missing column behaves as a column of empty cells, and `MapPage.WithCoordinates` and `MapPage.Weight` state these outcomes for empty cells.
- The random jitter of map coordinates is random and float-based. Points carry the unjittered coordinates.
- The 99th-percentile cap for the gap signal is an abstract `cap` parameter, because quantile interpolation is not modelled. pandas ignores a NaN threshold. A NaN cap only arises when no row has a numeric gap, in which case every weight is 0 anyway.
- IEEE floating point: all quantities are mathematical reals, so rounding, infinities and overflow are not modelled.
- Parsing numeric text in `pd.to_numeric`: a `Number` cell stands for any cell that coerces to a number, and a `Text` cell for one that does not.
- The text that `astype(str)` gives for a numeric district is the caller-supplied `show`. `str.contains` treats its argument as a regular expression. The codes offered ("1", "5") contain no metacharacters, so the model uses a substring test.
- The ward and street options are sorted alphabetically, which is presentation only, so options are modelled as a set. `sorted` also raises a TypeError when one column mixes text and numeric values, and the page then stops before the ward or street filter runs. That error path is not modelled. `PriceLookup.OfferedChoicesLeaveRows` assumes the options could be listed.
- The display sort of reference listings by unit price (pages/1_Price_Lookup.py:90-91) is presentation only.
- MapPage.Ranking: the order of tied groups is not modelled, because pandas' default sort is not stable. The model sorts groups by first appearance with a stable sort, and its contracts state only what holds for any tie order.
- MapPage.Summarize: aggregating a column that the page has not coerced (the one not chosen as the weight) would raise in pandas if it held text. The model coerces every aggregated column.
- pages/3_Dashboard.py is an unparseable near-duplicate of the Price Lookup page (it has stray indented blocks). utils/io.py is the tax page, and none of its logic is modelled beyond the `Tax` functions it calls. It repeats the district, ward and street cascade (utils/io.py:14-24). It then takes the median of the raw government price column only (utils/io.py:26-27) and ignores the corrected column, so on a sheet that has the corrected column the fees are computed from the raw price while the Price Lookup page shows the corrected one (pages/1_Price_Lookup.py:35-38). The fees are computed only when that median is present (utils/io.py:39), and the transfer tax only for a positive transfer price (utils/io.py:42).
- The weight on fake probability is passed to `risk_score` unchanged, as the page does. Its range is the slider's [0, 1], and no validation is modelled.

=== FILE: listings.dfy ===
/** The enriched listings sheet both pages read: one record per listing, every
    field a raw cell, and the two corrected columns possibly missing. */
module Listings {
  import opened Values
  import Seqs
  import Stats

  datatype Listing = Listing(
    district: Cell,
    ward: Cell,
    street: Cell,
    govPrice: Cell,            // Government Unit Price 2026 (million VND/m²)
    govPriceCorrected: Cell,   // Gov Price 2026 Corrected (million VND/m²)
    marketRef: Cell,           // Market Reference Unit Price (median, million VND/m²)
    priceGap: Cell,            // Price Gap (MarketRef / GovPrice)
    priceGapCorrected: Cell,   // Price Gap Corrected
    fakeProbability: Cell,     // Fake Probability (data quality)
    riskScore: Cell,           // Risk Score
    latitude: Cell,
    longitude: Cell)

  /** The sheet: its rows and whether each optional corrected column exists.
      When a column is absent, the rows' cells for it are never looked at. */
  datatype Table = Table(rows: seq<Listing>, hasGovCorrected: bool, hasGapCorrected: bool)

  /** `astype(str)` on one cell: text as it is, a missing cell as "nan", a
      number as `show` renders it. */
  function AsText(c: Cell, show: real -> string): string {
    match c
    case Empty => "nan"
    case Text(s) => s
    case Number(x) => show(x)
  }

  /** `df["District"].astype(str).str.contains(code)` for one row. The codes the
      pages offer ("1", "5") hold no pattern metacharacters, so the pattern
      match is a substring test. */
  predicate InDistrict(l: Listing, code: string, show: real -> string) {
    Seqs.Contains(AsText(l.district, show), code)
  }

  /** pandas `==` between a cell and a selected value: a missing cell equals
      nothing, and a missing selection (`None`) is equalled by nothing. */
  predicate Matches(c: Cell, selected: Cell) {
    c != Empty && c == selected
  }

  /** Cell equality as the filters use it is symmetric, but a missing cell
      equals nothing, not even another missing cell. */
  lemma MatchesIsEqualityOfPresentCells(c: Cell, d: Cell)
    ensures Matches(c, d) <==> Matches(d, c)
    ensures Matches(c, c) <==> c != Empty
    ensures !Matches(Empty, d) && !Matches(c, Empty)
  {
  }

  /** One column of the rows, in row order. */
  function Column(rows: seq<Listing>, field: Listing -> Cell): (cells: seq<Cell>)
    ensures |cells| == |rows|
    ensures forall i :: 0 <= i < |rows| ==> cells[i] == field(rows[i])
  {
    seq(|rows|, i requires 0 <= i < |rows| => field(rows[i]))
  }

  /** A numeric cell of a column comes from some row. */
  lemma NumberInColumn(rows: seq<Listing>, field: Listing -> Cell, x: real)
    requires Number(x) in Column(rows, field)
    ensures exists l :: l in rows && field(l) == Number(x)
  {
    var cells := Column(rows, field);
    var i :| 0 <= i < |cells| && cells[i] == Number(x);
    assert rows[i] in rows;
  }

  /** No cell of the column is numeric exactly when no row's field is. */
  lemma NoNumbersInColumn(rows: seq<Listing>, field: Listing -> Cell)
    ensures (forall i :: 0 <= i < |Column(rows, field)| ==> !Column(rows, field)[i].Number?)
        <==> (forall l :: l in rows ==> !field(l).Number?)
  {
    var cells := Column(rows, field);
    if forall l :: l in rows ==> !field(l).Number? {
      forall i | 0 <= i < |cells| ensures !cells[i].Number? {
        assert rows[i] in rows;
      }
    } else {
      var l :| l in rows && field(l).Number?;
      var i :| 0 <= i < |rows| && rows[i] == l;
      assert cells[i] == field(l);
    }
  }

  /** Median of a coerced column: NaN exactly when no row has a number there. */
  function MedianOf(rows: seq<Listing>, field: Listing -> Cell): (m: Value)
    ensures !m.None?
    ensures m.NaN? <==> forall l :: l in rows ==> !field(l).Number?
  {
    NoNumbersInColumn(rows, field);
    Stats.ColumnMedian(Column(rows, field))
  }

  /** Mean of a coerced column: NaN exactly when no row has a number there. */
  function MeanOf(rows: seq<Listing>, field: Listing -> Cell): (m: Value)
    ensures !m.None?
    ensures m.NaN? <==> forall l :: l in rows ==> !field(l).Number?
  {
    NoNumbersInColumn(rows, field);
    Stats.ColumnMean(Column(rows, field))
  }

  /** The gap column the map page reads: the corrected one when it exists. */
  function GapCell(l: Listing, hasGapCorrected: bool): Cell {
    if hasGapCorrected then l.priceGapCorrected else l.priceGap
  }
}

=== FILE: map_page.dfy ===
/** The map and ranking page (utils/scoring.py): keep the listings that have
    coordinates, optionally narrow them to one district, give each a map weight
    from the chosen signal, and rank streets by that signal. */
module MapPage {
  import opened Values
  import opened Listings
  import Seqs
  import Sorting
  import Stats

  /** The colour/weight signal the user picks. */
  datatype Signal = RiskSignal | GapSignal

  /** A listing placed on the map. */
  datatype Point = Point(listing: Listing, lat: real, lon: real, weight: real)

  // ---- Rows for the map ----

  predicate HasCoordinates(l: Listing) {
    Coerce(l.latitude).Num? && Coerce(l.longitude).Num?
  }

  /** Coerce both coordinates and drop rows where either is missing. */
  function WithCoordinates(rows: seq<Listing>): (r: seq<Listing>)
    ensures forall l :: l in r <==> l in rows && HasCoordinates(l)
    ensures forall l :: multiset(r)[l] == if HasCoordinates(l) then multiset(rows)[l] else 0
  {
    Seqs.Filter(rows, HasCoordinates)
  }

  /** The district filter's "no filter" choice. */
  const AllDistricts: string := "All"

  /** Whether a row passes the district filter for `choice`. */
  predicate InChoice(l: Listing, choice: string, show: real -> string) {
    choice == AllDistricts || InDistrict(l, choice, show)
  }

  /** "All" keeps every row; a district code keeps the rows whose district text
      contains it. Kept rows keep their order and multiplicity. */
  function DistrictFilter(rows: seq<Listing>, choice: string, show: real -> string): (r: seq<Listing>)
    ensures choice == AllDistricts ==> r == rows
    ensures forall l :: l in r <==> l in rows && InChoice(l, choice, show)
    ensures forall l :: multiset(r)[l] == if InChoice(l, choice, show) then multiset(rows)[l] else 0
    ensures |r| <= |rows|
  {
    if choice == AllDistricts then rows
    else Seqs.Filter(rows, (l: Listing) => InDistrict(l, choice, show))
  }

  // ---- Weights ----

  /** The column the signal reads: the risk score, or the gap column in use. */
  function WeightCell(l: Listing, signal: Signal, hasGapCorrected: bool): Cell {
    match signal
    case RiskSignal => l.riskScore
    case GapSignal => GapCell(l, hasGapCorrected)
  }

  /** The smaller and the larger of two bounds. */
  function Least(a: real, b: real): real {
    if a <= b then a else b
  }

  function Greatest(a: real, b: real): real {
    if a <= b then b else a
  }

  /** pandas `clip(lower=lo, upper=hi)` on a number. Two scalar bounds are put
      in order first, so reversed bounds clip to the same interval. */
  function Clip(x: real, lo: real, hi: real): (y: real)
    ensures Least(lo, hi) <= y <= Greatest(lo, hi)
    ensures Least(lo, hi) <= x <= Greatest(lo, hi) ==> y == x
    ensures x < Least(lo, hi) ==> y == Least(lo, hi)
    ensures x > Greatest(lo, hi) ==> y == Greatest(lo, hi)
  {
    var a, b := Least(lo, hi), Greatest(lo, hi);
    if x > b then b else if x < a then a else x
  }

  /** The order in which the bounds are given does not matter. */
  lemma ClipReversedBounds(x: real, lo: real, hi: real)
    ensures Clip(x, lo, hi) == Clip(x, hi, lo)
  {
  }

  /** Clipping never reverses the order of two values. */
  lemma ClipMonotone(x: real, y: real, lo: real, hi: real)
    requires x <= y
    ensures Clip(x, lo, hi) <= Clip(y, lo, hi)
  {
  }

  /** Upper bound of the risk signal's clip. */
  const RiskUpper: real := 1.0

  /** The map weight of one row: the coerced signal value, clipped to [0, 1]
      for risk and between 0 and `cap` for the gap (`cap` stands for the
      column's 99th percentile, and may be negative), and 0 when the value is
      missing. */
  function Weight(l: Listing, signal: Signal, hasGapCorrected: bool, cap: real): (w: real)
    ensures signal == RiskSignal ==> 0.0 <= w <= RiskUpper
    ensures signal == GapSignal ==> Least(0.0, cap) <= w <= Greatest(0.0, cap)
    ensures signal == GapSignal && cap >= 0.0 ==> 0.0 <= w <= cap
    ensures !WeightCell(l, signal, hasGapCorrected).Number? ==> w == 0.0
    ensures WeightCell(l, signal, hasGapCorrected).Number? ==>
              var x := WeightCell(l, signal, hasGapCorrected).x;
              var hi := if signal == RiskSignal then RiskUpper else cap;
              && (Least(0.0, hi) <= x <= Greatest(0.0, hi) ==> w == x)
              && (x < Least(0.0, hi) ==> w == Least(0.0, hi))
              && (x > Greatest(0.0, hi) ==> w == Greatest(0.0, hi))
  {
    var v := Coerce(WeightCell(l, signal, hasGapCorrected));
    var hi := if signal == RiskSignal then RiskUpper else cap;
    if v.NotNA() then Clip(v.v, 0.0, hi) else 0.0
  }

  /** The points the map draws, in row order. */
  function MapPoints(t: Table, choice: string, signal: Signal, cap: real, show: real -> string): (ps: seq<Point>)
    ensures |ps| == |DistrictFilter(WithCoordinates(t.rows), choice, show)|
    ensures forall i :: 0 <= i < |ps| ==>
              var l := DistrictFilter(WithCoordinates(t.rows), choice, show)[i];
              && ps[i].listing == l
              && HasCoordinates(l)
              && ps[i].lat == l.latitude.x && ps[i].lon == l.longitude.x
              && ps[i].weight == Weight(l, signal, t.hasGapCorrected, cap)
  {
    var rows := DistrictFilter(WithCoordinates(t.rows), choice, show);
    seq(|rows|, i requires 0 <= i < |rows| =>
      var l := rows[i];
      assert l in rows;
      Point(l, l.latitude.x, l.longitude.x, Weight(l, signal, t.hasGapCorrected, cap)))
  }

  /** Every point comes from a listing with both coordinates, in the chosen
      district, and its weight lies in the signal's range. */
  lemma MapPointsWellFormed(t: Table, choice: string, signal: Signal, cap: real, show: real -> string)
    ensures forall p :: p in MapPoints(t, choice, signal, cap, show) ==>
              && p.listing in t.rows
              && HasCoordinates(p.listing)
              && (choice != AllDistricts ==> InDistrict(p.listing, choice, show))
              && (signal == RiskSignal ==> 0.0 <= p.weight <= RiskUpper)
              && (signal == GapSignal ==> Least(0.0, cap) <= p.weight <= Greatest(0.0, cap))
  {
    var ps := MapPoints(t, choice, signal, cap, show);
    var rows := DistrictFilter(WithCoordinates(t.rows), choice, show);
    forall p | p in ps
      ensures p.listing in t.rows && HasCoordinates(p.listing)
      ensures choice != AllDistricts ==> InDistrict(p.listing, choice, show)
    {
      var i :| 0 <= i < |ps| && ps[i] == p;
      assert rows[i] in rows;
    }
  }

  // ---- Street ranking ----

  /** The group-by key. */
  datatype Key = Key(district: Cell, ward: Cell, street: Cell)

  function KeyOf(l: Listing): Key {
    Key(l.district, l.ward, l.street)
  }

  /** Group-by drops rows with a missing key part. */
  predicate Complete(k: Key) {
    k.district != Empty && k.ward != Empty && k.street != Empty
  }

  /** No key occurs twice. */
  predicate Distinct(ks: seq<Key>) {
    forall i, j :: 0 <= i < j < |ks| ==> ks[i] != ks[j]
  }

  /** The distinct complete keys, in order of first appearance. */
  function GroupKeys(rows: seq<Listing>): (ks: seq<Key>)
    ensures forall k :: k in ks <==> Complete(k) && exists l :: l in rows && KeyOf(l) == k
    ensures Distinct(ks)
  {
    if rows == [] then []
    else
      var init, last := rows[..|rows| - 1], rows[|rows| - 1];
      assert rows == init + [last];
      var ks := GroupKeys(init);
      if Complete(KeyOf(last)) && KeyOf(last) !in ks then ks + [KeyOf(last)] else ks
  }

  /** One row of the ranking table. */
  datatype StreetStats = StreetStats(key: Key, listings: nat, medianGap: Value, meanRisk: Value)

  predicate InGroup(l: Listing, k: Key) {
    KeyOf(l) == k
  }

  function GroupRows(rows: seq<Listing>, k: Key): seq<Listing> {
    Seqs.Filter(rows, (l: Listing) => InGroup(l, k))
  }

  /** Size, median gap and mean risk of one group. */
  function Summarize(rows: seq<Listing>, k: Key, hasGapCorrected: bool): (g: StreetStats)
    ensures g.key == k
    ensures g.listings == Seqs.Count(rows, (l: Listing) => InGroup(l, k))
    ensures g.medianGap.NaN? <==> forall l :: l in rows && InGroup(l, k) ==> !GapCell(l, hasGapCorrected).Number?
    ensures g.meanRisk.NaN? <==> forall l :: l in rows && InGroup(l, k) ==> !l.riskScore.Number?
  {
    var group := GroupRows(rows, k);
    StreetStats(k, |group|,
                MedianOf(group, (l: Listing) => GapCell(l, hasGapCorrected)),
                MeanOf(group, (l: Listing) => l.riskScore))
  }

  /** One summary per group, in key order. */
  function Aggregate(rows: seq<Listing>, hasGapCorrected: bool): (gs: seq<StreetStats>)
    ensures |gs| == |GroupKeys(rows)|
    ensures forall i :: 0 <= i < |gs| ==> gs[i] == Summarize(rows, GroupKeys(rows)[i], hasGapCorrected)
  {
    var ks := GroupKeys(rows);
    seq(|ks|, i requires 0 <= i < |ks| => Summarize(rows, ks[i], hasGapCorrected))
  }

  /** The column the table is sorted by. */
  function SortValue(g: StreetStats, signal: Signal): Value {
    match signal
    case GapSignal => g.medianGap
    case RiskSignal => g.meanRisk
  }

  /** `a` may come before `b` in a descending sort that puts missing values last. */
  predicate RanksAtLeast(a: Value, b: Value) {
    if a.Num? then b.Num? ==> a.v >= b.v else !b.Num?
  }

  function Before(signal: Signal): (StreetStats, StreetStats) -> bool {
    (a: StreetStats, b: StreetStats) => RanksAtLeast(SortValue(a, signal), SortValue(b, signal))
  }

  lemma BeforeIsTotalPreorder(signal: Signal)
    ensures Sorting.TotalPreorder(Before(signal))
  {
  }

  /** Rows shown in the ranking table. */
  const TopStreets: nat := 30

  /** The ranking table: groups sorted by the signal's column, descending, and
      the first 30 kept. */
  function Ranking(rows: seq<Listing>, signal: Signal, hasGapCorrected: bool): (r: seq<StreetStats>)
    ensures |r| <= TopStreets
    ensures |r| == if |GroupKeys(rows)| <= TopStreets then |GroupKeys(rows)| else TopStreets
  {
    Seqs.Take(Sorting.SortBy(Aggregate(rows, hasGapCorrected), Before(signal)), TopStreets)
  }

  /** The sorted summaries the table is cut from. */
  function SortedSummaries(rows: seq<Listing>, signal: Signal, hasGapCorrected: bool): (s: seq<StreetStats>)
    ensures multiset(s) == multiset(Aggregate(rows, hasGapCorrected))
    ensures forall i, j :: 0 <= i < j < |s| ==> RanksAtLeast(SortValue(s[i], signal), SortValue(s[j], signal))
    ensures Ranking(rows, signal, hasGapCorrected) == Seqs.Take(s, TopStreets)
  {
    var s := Sorting.SortBy(Aggregate(rows, hasGapCorrected), Before(signal));
    BeforeIsTotalPreorder(signal);
    Sorting.SortBySorted(Aggregate(rows, hasGapCorrected), Before(signal));
    assert forall i, j :: 0 <= i < j < |s| ==> Before(signal)(s[i], s[j]);
    s
  }

  /** The table is in descending order of the signal's column, missing values
      last. */
  lemma RankingSorted(rows: seq<Listing>, signal: Signal, hasGapCorrected: bool)
    ensures var r := Ranking(rows, signal, hasGapCorrected);
            forall i, j :: 0 <= i < j < |r| ==> RanksAtLeast(SortValue(r[i], signal), SortValue(r[j], signal))
  {
    var s := SortedSummaries(rows, signal, hasGapCorrected);
    var r := Ranking(rows, signal, hasGapCorrected);
    assert forall i :: 0 <= i < |r| ==> r[i] == s[i];
  }

  /** A summary that appears in the table is one of the groups. */
  lemma RankedIsAggregated(rows: seq<Listing>, signal: Signal, hasGapCorrected: bool, g: StreetStats)
    requires g in Ranking(rows, signal, hasGapCorrected)
    ensures g in Aggregate(rows, hasGapCorrected)
  {
    var s := SortedSummaries(rows, signal, hasGapCorrected);
    assert g in s;
    assert g in multiset(s);
  }

  /** A summary among the groups describes one (district, ward, street) group
      of the rows. */
  lemma AggregatedIsGroup(rows: seq<Listing>, hasGapCorrected: bool, g: StreetStats)
    requires g in Aggregate(rows, hasGapCorrected)
    ensures Complete(g.key) && exists l :: l in rows && KeyOf(l) == g.key
    ensures g.listings == Seqs.Count(rows, (l: Listing) => InGroup(l, g.key))
    ensures g.listings >= 1
    ensures g.medianGap.NaN? <==> forall l :: l in rows && InGroup(l, g.key) ==> !GapCell(l, hasGapCorrected).Number?
    ensures g.meanRisk.NaN? <==> forall l :: l in rows && InGroup(l, g.key) ==> !l.riskScore.Number?
  {
    var gs := Aggregate(rows, hasGapCorrected);
    var i :| 0 <= i < |gs| && gs[i] == g;
    var k := GroupKeys(rows)[i];
    assert g == Summarize(rows, k, hasGapCorrected);
    assert k in GroupKeys(rows);
    var l :| l in rows && KeyOf(l) == k;
    assert l in GroupRows(rows, k);
  }

  /** Every table row describes one (district, ward, street) group of the
      rows: its key is complete and occurs, its count is the number of rows
      with that key (at least one), and its median gap and mean risk are
      missing exactly when no row of the group has a number for them. */
  lemma RankingRowsAreGroups(rows: seq<Listing>, signal: Signal, hasGapCorrected: bool)
    ensures forall g :: g in Ranking(rows, signal, hasGapCorrected) ==>
              && Complete(g.key)
              && (exists l :: l in rows && KeyOf(l) == g.key)
              && g.listings == Seqs.Count(rows, (l: Listing) => InGroup(l, g.key))
              && g.listings >= 1
              && (g.medianGap.NaN? <==> forall l :: l in rows && InGroup(l, g.key) ==> !GapCell(l, hasGapCorrected).Number?)
              && (g.meanRisk.NaN? <==> forall l :: l in rows && InGroup(l, g.key) ==> !l.riskScore.Number?)
  {
    forall g | g in Ranking(rows, signal, hasGapCorrected)
      ensures Complete(g.key) && exists l :: l in rows && KeyOf(l) == g.key
      ensures g.listings == Seqs.Count(rows, (l: Listing) => InGroup(l, g.key))
      ensures g.listings >= 1
      ensures g.medianGap.NaN? <==> forall l :: l in rows && InGroup(l, g.key) ==> !GapCell(l, hasGapCorrected).Number?
      ensures g.meanRisk.NaN? <==> forall l :: l in rows && InGroup(l, g.key) ==> !l.riskScore.Number?
    {
      RankedIsAggregated(rows, signal, hasGapCorrected, g);
      AggregatedIsGroup(rows, hasGapCorrected, g);
    }
  }

  /** Cutting at 30 drops only groups that rank no higher than every group
      kept. */
  lemma RankingKeepsTheTop(rows: seq<Listing>, signal: Signal, hasGapCorrected: bool)
    ensures var r := Ranking(rows, signal, hasGapCorrected);
            forall g, h :: g in Aggregate(rows, hasGapCorrected) && g !in r && h in r ==>
              RanksAtLeast(SortValue(h, signal), SortValue(g, signal))
  {
    var s := SortedSummaries(rows, signal, hasGapCorrected);
    var r := Ranking(rows, signal, hasGapCorrected);
    forall g, h | g in Aggregate(rows, hasGapCorrected) && g !in r && h in r
      ensures RanksAtLeast(SortValue(h, signal), SortValue(g, signal))
    {
      assert g in multiset(s);
      var j :| 0 <= j < |s| && s[j] == g;
      var i :| 0 <= i < |r| && r[i] == h;
      assert r[i] == s[i];
      assert r == s[..|r|];
      assert j >= |r|;
    }
  }

  /** Every complete key in the rows has a summary among the groups. */
  lemma KeyHasSummary(rows: seq<Listing>, hasGapCorrected: bool, l: Listing)
    requires l in rows && Complete(KeyOf(l))
    ensures exists g :: g in Aggregate(rows, hasGapCorrected) && g.key == KeyOf(l)
  {
    var ks := GroupKeys(rows);
    var gs := Aggregate(rows, hasGapCorrected);
    assert KeyOf(l) in ks;
    var i :| 0 <= i < |ks| && ks[i] == KeyOf(l);
    assert gs[i].key == KeyOf(l);
    assert gs[i] in gs;
  }

  /** With at most 30 groups, every complete key in the rows has its row in
      the table. */
  lemma RankingCompleteWhenFewGroups(rows: seq<Listing>, signal: Signal, hasGapCorrected: bool)
    requires |GroupKeys(rows)| <= TopStreets
    ensures forall l :: l in rows && Complete(KeyOf(l)) ==>
              exists g :: g in Ranking(rows, signal, hasGapCorrected) && g.key == KeyOf(l)
  {
    var s := SortedSummaries(rows, signal, hasGapCorrected);
    var gs := Aggregate(rows, hasGapCorrected);
    assert Ranking(rows, signal, hasGapCorrected) == s;
    forall l | l in rows && Complete(KeyOf(l))
      ensures exists g :: g in s && g.key == KeyOf(l)
    {
      KeyHasSummary(rows, hasGapCorrected, l);
      var g :| g in gs && g.key == KeyOf(l);
      assert g in multiset(gs);
      assert g in s;
    }
  }

  // ---- The table the page shows ----

  /** A row that reaches the ranking: it has both coordinates and passes the
      district filter. */
  predicate Located(l: Listing, choice: string, show: real -> string) {
    HasCoordinates(l) && InChoice(l, choice, show)
  }

  /** The rows the page groups: the sheet after the coordinate drop and the
      district filter, each kept row as often as it occurs in the sheet. */
  function MapRows(t: Table, choice: string, show: real -> string): (rows: seq<Listing>)
    ensures forall l :: l in rows <==> l in t.rows && Located(l, choice, show)
    ensures forall l :: multiset(rows)[l] == if Located(l, choice, show) then multiset(t.rows)[l] else 0
  {
    DistrictFilter(WithCoordinates(t.rows), choice, show)
  }

  /** The ranking table as the page builds it from the sheet. */
  function RankingTable(t: Table, choice: string, signal: Signal, show: real -> string): seq<StreetStats> {
    Ranking(MapRows(t, choice, show), signal, t.hasGapCorrected)
  }

  /** The filtered rows hold the same listings as one filter of the sheet. */
  lemma MapRowsAsOneFilter(t: Table, choice: string, show: real -> string)
    ensures multiset(MapRows(t, choice, show)) == multiset(Seqs.Filter(t.rows, (l: Listing) => Located(l, choice, show)))
  {
    var rows := MapRows(t, choice, show);
    var kept := Seqs.Filter(t.rows, (l: Listing) => Located(l, choice, show));
    forall l ensures multiset(rows)[l] == multiset(kept)[l] { }
  }

  /** A group's size counted on the filtered rows is its size counted on the
      sheet among the rows that have coordinates and pass the district filter. */
  lemma CountOfMapRows(t: Table, choice: string, show: real -> string, k: Key)
    ensures Seqs.Count(MapRows(t, choice, show), (l: Listing) => InGroup(l, k))
         == Seqs.Count(t.rows, (l: Listing) => InGroup(l, k) && Located(l, choice, show))
  {
    var located := (l: Listing) => Located(l, choice, show);
    var inGroup := (l: Listing) => InGroup(l, k);
    var both := (l: Listing) => InGroup(l, k) && Located(l, choice, show);
    MapRowsAsOneFilter(t, choice, show);
    Seqs.CountOfPermutation(MapRows(t, choice, show), Seqs.Filter(t.rows, located), inGroup);
    Seqs.CountOfFilter(t.rows, located, inGroup, both);
  }

  /** Every row of the page's table counts only sheet rows that have
      coordinates and lie in the chosen district, and at least one such row has
      its key. */
  lemma RankingTableCountsLocatedRows(t: Table, choice: string, signal: Signal, show: real -> string)
    ensures forall g :: g in RankingTable(t, choice, signal, show) ==>
              && g.listings == Seqs.Count(t.rows, (l: Listing) => InGroup(l, g.key) && Located(l, choice, show))
              && exists l :: l in t.rows && KeyOf(l) == g.key && Located(l, choice, show)
  {
    var rows := MapRows(t, choice, show);
    forall g | g in RankingTable(t, choice, signal, show)
      ensures g.listings == Seqs.Count(t.rows, (l: Listing) => InGroup(l, g.key) && Located(l, choice, show))
      ensures exists l :: l in t.rows && KeyOf(l) == g.key && Located(l, choice, show)
    {
      RankedIsAggregated(rows, signal, t.hasGapCorrected, g);
      AggregatedIsGroup(rows, t.hasGapCorrected, g);
      CountOfMapRows(t, choice, show, g.key);
      var l :| l in rows && KeyOf(l) == g.key;
      assert l in t.rows && Located(l, choice, show);
    }
  }

  // ---- The groups partition the rows ----

  /** Sum of the listings column. */
  function TotalListings(gs: seq<StreetStats>): nat {
    if gs == [] then 0 else gs[0].listings + TotalListings(gs[1..])
  }

  /** Rows counted over a list of group keys. */
  function ListingsIn(rows: seq<Listing>, ks: seq<Key>): nat {
    if ks == [] then 0 else Seqs.Count(rows, (l: Listing) => InGroup(l, ks[0])) + ListingsIn(rows, ks[1..])
  }

  /** How many entries of `ks` equal `k`. */
  function Hits(k: Key, ks: seq<Key>): nat {
    if ks == [] then 0 else (if ks[0] == k then 1 else 0) + Hits(k, ks[1..])
  }

  lemma {:induction false} HitsOfDistinct(k: Key, ks: seq<Key>)
    requires Distinct(ks)
    ensures Hits(k, ks) == if k in ks then 1 else 0
  {
    if ks != [] {
      assert Distinct(ks[1..]);
      HitsOfDistinct(k, ks[1..]);
      if ks[0] == k {
        assert k !in ks[1..];
      }
    }
  }

  lemma {:induction false} ListingsInCons(l: Listing, rows: seq<Listing>, ks: seq<Key>)
    ensures ListingsIn([l] + rows, ks) == Hits(KeyOf(l), ks) + ListingsIn(rows, ks)
  {
    if ks != [] {
      Seqs.CountCons(l, rows, (m: Listing) => InGroup(m, ks[0]));
      ListingsInCons(l, rows, ks[1..]);
    }
  }

  /** Over distinct keys, the group counts add up to the rows whose key is
      among them. */
  lemma {:induction false} ListingsInDistinct(rows: seq<Listing>, ks: seq<Key>)
    requires Distinct(ks)
    ensures ListingsIn(rows, ks) == Seqs.Count(rows, (l: Listing) => KeyOf(l) in ks)
  {
    if rows == [] {
      ZeroListings(ks);
    } else {
      assert rows == [rows[0]] + rows[1..];
      ListingsInCons(rows[0], rows[1..], ks);
      HitsOfDistinct(KeyOf(rows[0]), ks);
      ListingsInDistinct(rows[1..], ks);
      Seqs.CountCons(rows[0], rows[1..], (l: Listing) => KeyOf(l) in ks);
    }
  }

  lemma {:induction false} ZeroListings(ks: seq<Key>)
    ensures ListingsIn([], ks) == 0
  {
    if ks != [] {
      ZeroListings(ks[1..]);
    }
  }

  lemma {:induction false} TotalOfSummaries(rows: seq<Listing>, ks: seq<Key>, gs: seq<StreetStats>)
    requires |gs| == |ks|
    requires forall i :: 0 <= i < |gs| ==> gs[i].listings == Seqs.Count(rows, (l: Listing) => InGroup(l, ks[i]))
    ensures TotalListings(gs) == ListingsIn(rows, ks)
  {
    if gs != [] {
      TotalOfSummaries(rows, ks[1..], gs[1..]);
    }
  }

  /** The groups partition the rows with a complete key: their listing counts
      add up to exactly that many rows. */
  lemma GroupsPartitionRows(rows: seq<Listing>, hasGapCorrected: bool)
    ensures TotalListings(Aggregate(rows, hasGapCorrected)) == Seqs.Count(rows, (l: Listing) => Complete(KeyOf(l)))
  {
    var ks := GroupKeys(rows);
    var gs := Aggregate(rows, hasGapCorrected);
    TotalOfSummaries(rows, ks, gs);
    ListingsInDistinct(rows, ks);
    Seqs.CountAgree(rows, (l: Listing) => KeyOf(l) in ks, (l: Listing) => Complete(KeyOf(l)));
  }

  /** When every risk score of a group lies in [0, 1], so does its mean. */
  lemma MeanRiskWithinUnit(rows: seq<Listing>, k: Key, hasGapCorrected: bool)
    requires forall l :: l in rows && InGroup(l, k) && l.riskScore.Number? ==> 0.0 <= l.riskScore.x <= 1.0
    ensures Summarize(rows, k, hasGapCorrected).meanRisk.Num? ==>
              0.0 <= Summarize(rows, k, hasGapCorrected).meanRisk.v <= 1.0
  {
    var group := GroupRows(rows, k);
    var field := (l: Listing) => l.riskScore;
    var xs := NumericValues(Column(group, field));
    if xs != [] {
      forall i | 0 <= i < |xs| ensures 0.0 <= xs[i] <= 1.0 {
        assert xs[i] in xs;
        NumberInColumn(group, field, xs[i]);
      }
      Stats.MeanWithin(xs, 0.0, 1.0);
    }
  }
}

=== FILE: price_lookup.dfy ===
/** The Price Lookup page's metric derivation (pages/1_Price_Lookup.py): narrow
    the sheet to one district, ward and street, take medians of the price
    columns, derive the price gap, and carry an undefined gap through the risk
    score. */
module PriceLookup {
  import opened Values
  import opened Listings
  import Seqs
  import Stats

  /** The scoring functions the page imports but whose definitions are not part
      of this model: they are supplied by the caller and left uninterpreted. */
  datatype Scorer = Scorer(
    normalizeGap: Value -> Value,
    riskScore: (Value, Value, real) -> Value,
    riskLevel: Value -> string)

  /** The user's choices: district code, ward, street (a `None` selection, as
      an empty select box gives, is `Empty`) and the weight on fake probability. */
  datatype Selection = Selection(district: string, ward: Cell, street: Cell, wFake: real)

  /** What the "Price Gap" metric shows. */
  datatype GapDisplay = CorrectedGap(shown: Value) | RecomputedGap(shown: Value) | GapNA

  /** Everything the page derives for one street. */
  datatype Metrics = Metrics(
    rows: seq<Listing>,
    gov: Value,
    mref: Value,
    gap: Value,
    gap2: Value,
    fakeProb: Value,
    scoreInput: Value,
    sGap: Value,
    risk: Value,
    level: string,
    display: GapDisplay)

  // ---- Filter cascade ----

  function DistrictRows(rows: seq<Listing>, code: string, show: real -> string): seq<Listing> {
    Seqs.Filter(rows, (l: Listing) => InDistrict(l, code, show))
  }

  function WardRows(rows: seq<Listing>, ward: Cell): seq<Listing> {
    Seqs.Filter(rows, (l: Listing) => Matches(l.ward, ward))
  }

  function StreetRows(rows: seq<Listing>, street: Cell): seq<Listing> {
    Seqs.Filter(rows, (l: Listing) => Matches(l.street, street))
  }

  /** The row a listing must satisfy to survive the cascade. */
  predicate Selected(l: Listing, sel: Selection, show: real -> string) {
    InDistrict(l, sel.district, show) && Matches(l.ward, sel.ward) && Matches(l.street, sel.street)
  }

  /** District, then ward, then street. Exactly the selected listings survive,
      each as many times as it occurs. */
  function SelectRows(rows: seq<Listing>, sel: Selection, show: real -> string): (r: seq<Listing>)
    ensures forall l :: l in r <==> l in rows && Selected(l, sel, show)
    ensures forall l :: multiset(r)[l] == if Selected(l, sel, show) then multiset(rows)[l] else 0
  {
    StreetRows(WardRows(DistrictRows(rows, sel.district, show), sel.ward), sel.street)
  }

  /** The cascade is one filter on the conjunction of the three conditions, so
      it also keeps the rows' order. */
  lemma {:induction false} CascadeIsOneFilter(rows: seq<Listing>, sel: Selection, show: real -> string)
    ensures SelectRows(rows, sel, show) == Seqs.Filter(rows, (l: Listing) => Selected(l, sel, show))
  {
    if rows != [] {
      CascadeIsOneFilter(rows[1..], sel, show);
    }
  }

  /** The choices a select box offers: the distinct non-missing values. */
  function Options(rows: seq<Listing>, field: Listing -> Cell): (opts: set<Cell>)
    ensures Empty !in opts
    ensures forall l :: l in rows && field(l) != Empty ==> field(l) in opts
    ensures forall c :: c in opts ==> exists l :: l in rows && field(l) == c
  {
    set l | l in rows && field(l) != Empty :: field(l)
  }

  /** Choosing a ward offered for the district and a street offered for that
      ward always leaves at least one listing. */
  lemma OfferedChoicesLeaveRows(rows: seq<Listing>, sel: Selection, show: real -> string)
    requires sel.ward in Options(DistrictRows(rows, sel.district, show), (l: Listing) => l.ward)
    requires sel.street in Options(WardRows(DistrictRows(rows, sel.district, show), sel.ward), (l: Listing) => l.street)
    ensures |SelectRows(rows, sel, show)| > 0
  {
    var wardRows := WardRows(DistrictRows(rows, sel.district, show), sel.ward);
    var l :| l in wardRows && l.street != Empty && l.street == sel.street;
    assert l in SelectRows(rows, sel, show);
  }

  /** With no ward or no street to choose, nothing is left. */
  lemma MissingChoiceLeavesNothing(rows: seq<Listing>, sel: Selection, show: real -> string)
    requires sel.ward == Empty || sel.street == Empty
    ensures SelectRows(rows, sel, show) == []
  {
  }

  // ---- Medians and the gap ----

  /** The government price column in use: the corrected one, for every row,
      whenever that column exists. */
  function GovCell(l: Listing, hasGovCorrected: bool): Cell {
    if hasGovCorrected then l.govPriceCorrected else l.govPrice
  }

  function GovMedian(rows: seq<Listing>, hasGovCorrected: bool): (gov: Value)
    ensures !gov.None?
    ensures gov.NaN? <==> forall l :: l in rows ==> !GovCell(l, hasGovCorrected).Number?
  {
    MedianOf(rows, (l: Listing) => GovCell(l, hasGovCorrected))
  }

  function MrefMedian(rows: seq<Listing>): (mref: Value)
    ensures !mref.None?
    ensures mref.NaN? <==> forall l :: l in rows ==> !l.marketRef.Number?
  {
    MedianOf(rows, (l: Listing) => l.marketRef)
  }

  function FakeMedian(rows: seq<Listing>): (fake: Value)
    ensures !fake.None?
    ensures fake.NaN? <==> forall l :: l in rows ==> !l.fakeProbability.Number?
  {
    MedianOf(rows, (l: Listing) => l.fakeProbability)
  }

  /** Market reference over government price, defined only when both are
      numbers and the government price is not zero; `None` otherwise. */
  function PriceGap(mref: Value, gov: Value): (gap: Value)
    ensures !gap.NaN?
    ensures gap.Num? <==> mref.Num? && gov.Num? && gov.v != 0.0
    ensures gap.Num? ==> gap.v * gov.v == mref.v
  {
    if mref.NotNA() && gov.NotNA() && gov.v != 0.0 then Num(mref.v / gov.v) else None
  }

  /** Median of the corrected gap column: `None` when the column is absent,
      NaN when it exists but holds no number for this street. */
  function CorrectedGapMedian(rows: seq<Listing>, hasGapCorrected: bool): (gap2: Value)
    ensures gap2.None? <==> !hasGapCorrected
    ensures gap2.NaN? <==> hasGapCorrected && forall l :: l in rows ==> !l.priceGapCorrected.Number?
  {
    if hasGapCorrected then
      MedianOf(rows, (l: Listing) => l.priceGapCorrected)
    else None
  }

  // ---- Choosing the gap and scoring it ----

  /** The gap fed to scoring, as written: the corrected median whenever it is
      not `None` -- a NaN median included. */
  function ScoreInput(gap: Value, gap2: Value): (input: Value)
    ensures input.None? <==> gap2.None? && gap.None?
    ensures input.NaN? <==> gap2.NaN? || (gap2.None? && gap.NaN?)
    ensures input.Num? ==> input == gap2 || (gap2.None? && input == gap)
  {
    if !gap2.None? then gap2 else gap
  }

  /** The gap fed to scoring, as evidently intended: the corrected median when
      it is a number, the recomputed gap otherwise. */
  function ScoreInputCorrected(gap: Value, gap2: Value): (input: Value)
    ensures input.Num? <==> gap2.Num? || gap.Num?
    ensures gap2.Num? ==> input == gap2
    ensures !gap2.Num? ==> input == gap
    ensures input.NaN? ==> gap.NaN?
  {
    if gap2.NotNA() then gap2 else gap
  }

  /** The normalised gap, `None` without a gap to normalise. */
  function NormalizedGap(input: Value, sc: Scorer): (sGap: Value)
    ensures input.None? ==> sGap.None?
    ensures !input.None? ==> sGap == sc.normalizeGap(input)
  {
    if !input.None? then sc.normalizeGap(input) else None
  }

  /** The risk score, `None` without a normalised gap. */
  function Risk(fakeProb: Value, sGap: Value, wFake: real, sc: Scorer): (risk: Value)
    ensures sGap.None? ==> risk.None?
    ensures !sGap.None? ==> risk == sc.riskScore(fakeProb, sGap, wFake)
  {
    if !sGap.None? then sc.riskScore(fakeProb, sGap, wFake) else None
  }

  /** The "Price Gap" metric, as written: the corrected median whenever it is
      not `None`, then the recomputed gap, then "N/A". */
  function GapDisplayOf(gap: Value, gap2: Value): (d: GapDisplay)
    ensures d.GapNA? <==> gap2.None? && gap.None?
    ensures d.CorrectedGap? <==> !gap2.None?
    ensures !d.GapNA? ==> d.shown == ScoreInput(gap, gap2)
  {
    if !gap2.None? then CorrectedGap(gap2)
    else if !gap.None? then RecomputedGap(gap)
    else GapNA
  }

  /** The "Price Gap" metric, as evidently intended: a NaN corrected median
      falls back to the recomputed gap, so a shown value is always a number. */
  function GapDisplayCorrected(gap: Value, gap2: Value): (d: GapDisplay)
    requires !gap.NaN?
    ensures d.GapNA? <==> !gap2.Num? && !gap.Num?
    ensures d.CorrectedGap? <==> gap2.Num?
    ensures !d.GapNA? ==> d.shown.Num? && d.shown == ScoreInputCorrected(gap, gap2)
  {
    if gap2.NotNA() then CorrectedGap(gap2)
    else if !gap.None? then RecomputedGap(gap)
    else GapNA
  }

  // ---- The page ----

  /** The page as written. */
  function Lookup(t: Table, sel: Selection, sc: Scorer, show: real -> string): (m: Metrics)
    ensures m.rows == SelectRows(t.rows, sel, show)
    ensures forall l :: l in m.rows <==> l in t.rows && Selected(l, sel, show)
    ensures m.gov == GovMedian(m.rows, t.hasGovCorrected)
    ensures m.mref == MrefMedian(m.rows)
    ensures m.gap == PriceGap(m.mref, m.gov)
    ensures m.gap2 == CorrectedGapMedian(m.rows, t.hasGapCorrected)
    ensures m.fakeProb == FakeMedian(m.rows)
    ensures m.gap2.None? <==> !t.hasGapCorrected
    ensures !m.gap2.None? ==> m.scoreInput == m.gap2
    ensures m.gap2.None? ==> m.scoreInput == m.gap
    ensures m.sGap.None? <==> m.scoreInput.None? || sc.normalizeGap(m.scoreInput).None?
    ensures !m.scoreInput.None? ==> m.sGap == sc.normalizeGap(m.scoreInput)
    ensures m.sGap.None? ==> m.risk.None?
    ensures !m.sGap.None? ==> m.risk == sc.riskScore(m.fakeProb, m.sGap, sel.wFake)
    ensures m.level == sc.riskLevel(m.risk)
    ensures m.display.GapNA? <==> m.scoreInput.None?
    ensures !m.display.GapNA? ==> m.display.shown == m.scoreInput
    ensures m.display.CorrectedGap? <==> t.hasGapCorrected
  {
    var rows := SelectRows(t.rows, sel, show);
    var gov := GovMedian(rows, t.hasGovCorrected);
    var mref := MrefMedian(rows);
    var gap := PriceGap(mref, gov);
    var gap2 := CorrectedGapMedian(rows, t.hasGapCorrected);
    var fakeProb := FakeMedian(rows);
    var input := ScoreInput(gap, gap2);
    var sGap := NormalizedGap(input, sc);
    var risk := Risk(fakeProb, sGap, sel.wFake, sc);
    Metrics(rows, gov, mref, gap, gap2, fakeProb, input, sGap, risk, sc.riskLevel(risk), GapDisplayOf(gap, gap2))
  }

  /** Redoes the scoring and the gap display of computed metrics through the
      corrected choice, keeping the rows and the medians. */
  function Rescore(m: Metrics, sc: Scorer, wFake: real): (r: Metrics)
    requires !m.gap.NaN?
    ensures r.rows == m.rows && r.gov == m.gov && r.mref == m.mref
    ensures r.gap == m.gap && r.gap2 == m.gap2 && r.fakeProb == m.fakeProb
    ensures r.scoreInput.Num? <==> m.gap2.Num? || m.gap.Num?
    ensures !r.scoreInput.NaN?
    ensures m.gap2.Num? ==> r.scoreInput == m.gap2
    ensures !m.gap2.Num? ==> r.scoreInput == m.gap
    ensures r.scoreInput == ScoreInputCorrected(m.gap, m.gap2)
    ensures r.sGap.None? <==> r.scoreInput.None? || sc.normalizeGap(r.scoreInput).None?
    ensures !r.scoreInput.None? ==> r.sGap == sc.normalizeGap(r.scoreInput)
    ensures r.sGap.None? ==> r.risk.None?
    ensures !r.sGap.None? ==> r.risk == sc.riskScore(m.fakeProb, r.sGap, wFake)
    ensures r.level == sc.riskLevel(r.risk)
    ensures r.display.GapNA? <==> !r.scoreInput.Num?
    ensures r.display.CorrectedGap? <==> m.gap2.Num?
    ensures !r.display.GapNA? ==> r.display.shown.Num? && r.display.shown == r.scoreInput
  {
    var input := ScoreInputCorrected(m.gap, m.gap2);
    var sGap := NormalizedGap(input, sc);
    var risk := Risk(m.fakeProb, sGap, wFake, sc);
    m.(scoreInput := input, sGap := sGap, risk := risk, level := sc.riskLevel(risk),
       display := GapDisplayCorrected(m.gap, m.gap2))
  }

  /** The page with a NaN corrected-gap median treated as missing: the same
      rows and medians as `Lookup`, scored and shown through the corrected choice. */
  function LookupCorrected(t: Table, sel: Selection, sc: Scorer, show: real -> string): (m: Metrics)
    ensures m.rows == SelectRows(t.rows, sel, show)
    ensures forall l :: l in m.rows <==> l in t.rows && Selected(l, sel, show)
    ensures m.gov == GovMedian(m.rows, t.hasGovCorrected)
    ensures m.mref == MrefMedian(m.rows)
    ensures m.gap == PriceGap(m.mref, m.gov)
    ensures m.gap2 == CorrectedGapMedian(m.rows, t.hasGapCorrected)
    ensures m.fakeProb == FakeMedian(m.rows)
    ensures m.scoreInput.Num? <==> m.gap2.Num? || m.gap.Num?
    ensures !m.scoreInput.NaN?
    ensures m.gap2.Num? ==> m.scoreInput == m.gap2
    ensures !m.gap2.Num? ==> m.scoreInput == m.gap
    ensures m.scoreInput == ScoreInputCorrected(m.gap, m.gap2)
    ensures m.sGap.None? <==> m.scoreInput.None? || sc.normalizeGap(m.scoreInput).None?
    ensures !m.scoreInput.None? ==> m.sGap == sc.normalizeGap(m.scoreInput)
    ensures m.sGap.None? ==> m.risk.None?
    ensures !m.sGap.None? ==> m.risk == sc.riskScore(m.fakeProb, m.sGap, sel.wFake)
    ensures m.level == sc.riskLevel(m.risk)
    ensures m.display.GapNA? <==> !m.scoreInput.Num?
    ensures m.display.CorrectedGap? <==> m.gap2.Num?
    ensures !m.display.GapNA? ==> m.display.shown.Num? && m.display.shown == m.scoreInput
  {
    Rescore(Lookup(t, sel, sc, show), sc, sel.wFake)
  }

  /** Positive government prices give a positive median. */
  lemma GovMedianPositive(rows: seq<Listing>, hasGovCorrected: bool)
    requires exists l :: l in rows && GovCell(l, hasGovCorrected).Number?
    requires forall l :: l in rows && GovCell(l, hasGovCorrected).Number? ==> GovCell(l, hasGovCorrected).x > 0.0
    ensures GovMedian(rows, hasGovCorrected).Num?
    ensures GovMedian(rows, hasGovCorrected).v > 0.0
  {
    var field := (l: Listing) => GovCell(l, hasGovCorrected);
    var cells := Column(rows, field);
    var xs := NumericValues(cells);
    forall i | 0 <= i < |xs| ensures xs[i] > 0.0 {
      assert xs[i] in xs;
      NumberInColumn(rows, field, xs[i]);
    }
    assert GovMedian(rows, hasGovCorrected) == Stats.Median(xs);
    Stats.MedianPositive(xs);
  }

  /** A gap is always defined for a street where some listing has a market
      reference, some listing has a government price in the column in use,
      and every government price there is positive. */
  lemma GapDefinedForPositivePrices(t: Table, sel: Selection, sc: Scorer, show: real -> string)
    requires exists l :: l in t.rows && Selected(l, sel, show) && l.marketRef.Number?
    requires exists l :: l in t.rows && Selected(l, sel, show) && GovCell(l, t.hasGovCorrected).Number?
    requires forall l :: l in t.rows && Selected(l, sel, show) && GovCell(l, t.hasGovCorrected).Number?
                     ==> GovCell(l, t.hasGovCorrected).x > 0.0
    ensures Lookup(t, sel, sc, show).gap.Num?
    ensures Lookup(t, sel, sc, show).gov.v > 0.0
  {
    var m := Lookup(t, sel, sc, show);
    GovMedianPositive(m.rows, t.hasGovCorrected);
    assert m.mref.Num?;
  }

  /** The government median is a whole-column choice: when the corrected column
      exists, a street whose corrected cells are all missing gets NaN even if
      every raw government price there is a number. */
  lemma NoPerRowFallback(rows: seq<Listing>)
    requires forall l :: l in rows ==> l.govPriceCorrected == Empty
    ensures GovMedian(rows, true).NaN?
  {
  }

  /** When the corrected government column exists, the raw column has no
      influence on the government median. */
  lemma RawGovIgnoredWhenCorrected(rows1: seq<Listing>, rows2: seq<Listing>)
    requires |rows1| == |rows2|
    requires forall i :: 0 <= i < |rows1| ==> rows1[i].govPriceCorrected == rows2[i].govPriceCorrected
    ensures GovMedian(rows1, true) == GovMedian(rows2, true)
  {
    var f := (l: Listing) => GovCell(l, true);
    assert Column(rows1, f) == Column(rows2, f);
  }

  // ---- The NaN corrected-gap finding ----

  /** One listing with a government price of 50 and a market reference of 75,
      in a sheet that has a corrected-gap column but no value in it. */
  function ShadowExample(): Table {
    Table([Listing(Text("Quan 1"), Text("Ben Nghe"), Text("Le Loi"),
                   Number(50.0), Empty, Number(75.0), Empty, Empty,
                   Number(0.2), Empty, Number(10.77), Number(106.7))],
          false, true)
  }

  function ShadowSelection(): Selection {
    Selection("1", Text("Ben Nghe"), Text("Le Loi"), 0.5)
  }

  /** The example's one listing is the only row the selection keeps. */
  lemma ShadowRows(show: real -> string)
    ensures SelectRows(ShadowExample().rows, ShadowSelection(), show) == ShadowExample().rows
  {
    var t, sel := ShadowExample(), ShadowSelection();
    var row := t.rows[0];
    assert Seqs.Contains("Quan 1", "1") by {
      Seqs.ContainsIffOccurs("Quan 1", "1");
      assert Seqs.OccursAt("Quan 1", "1", 5);
    }
    assert Selected(row, sel, show);
    var rows := SelectRows(t.rows, sel, show);
    assert multiset(rows)[row] == 1;
    assert forall l :: l in rows ==> l == row;
    assert |rows| <= 1;
    assert rows[0] == row;
  }

  /** The example's medians: 50 for the government price, 75 for the market
      reference, and NaN for the empty corrected-gap column. */
  lemma ShadowMedians()
    ensures GovMedian(ShadowExample().rows, false) == Num(50.0)
    ensures MrefMedian(ShadowExample().rows) == Num(75.0)
    ensures CorrectedGapMedian(ShadowExample().rows, true) == NaN
  {
    var rows := ShadowExample().rows;
    assert Column(rows, (l: Listing) => GovCell(l, false)) == [Number(50.0)];
    assert Column(rows, (l: Listing) => l.marketRef) == [Number(75.0)];
    assert NumericValues([Number(50.0)]) == [50.0];
    assert NumericValues([Number(75.0)]) == [75.0];
    assert Stats.Median([50.0]) == Num(50.0);
    assert Stats.Median([75.0]) == Num(75.0);
  }

  /** As written, the NaN corrected median shadows a well-defined recomputed gap
      of 1.5: NaN is what gets normalised and what the metric shows. */
  lemma NaNCorrectedGapShadowsGap(sc: Scorer, show: real -> string)
    ensures Lookup(ShadowExample(), ShadowSelection(), sc, show).gap == Num(1.5)
    ensures Lookup(ShadowExample(), ShadowSelection(), sc, show).scoreInput == NaN
    ensures Lookup(ShadowExample(), ShadowSelection(), sc, show).display == CorrectedGap(NaN)
  {
    ShadowRows(show);
    ShadowMedians();
    assert PriceGap(Num(75.0), Num(50.0)) == Num(1.5);
  }

  /** With the NaN treated as missing, the same street scores and shows the
      recomputed gap. */
  lemma CorrectedUsesRecomputedGap(sc: Scorer, show: real -> string)
    ensures LookupCorrected(ShadowExample(), ShadowSelection(), sc, show).scoreInput == Num(1.5)
    ensures LookupCorrected(ShadowExample(), ShadowSelection(), sc, show).display == RecomputedGap(Num(1.5))
  {
    NaNCorrectedGapShadowsGap(sc, show);
    assert LookupCorrected(ShadowExample(), ShadowSelection(), sc, show).gap
        == Lookup(ShadowExample(), ShadowSelection(), sc, show).gap;
  }
}

=== FILE: seqs.dfy ===
/** Sequence helpers shared by the pages: order-preserving filtering (pandas
    boolean indexing), counting, `head(n)`, and substring search (`str.contains`). */
module Seqs {

  /** Keeps, in order, the elements of `s` that satisfy `p`, each as often as it
      occurs in `s`. */
  function Filter<T(!new)>(s: seq<T>, p: T -> bool): (r: seq<T>)
    ensures |r| <= |s|
    ensures forall x :: x in r <==> x in s && p(x)
    ensures forall x :: multiset(r)[x] == if p(x) then multiset(s)[x] else 0
  {
    if s == [] then []
    else
      assert s == [s[0]] + s[1..];
      if p(s[0]) then [s[0]] + Filter(s[1..], p) else Filter(s[1..], p)
  }

  /** Number of elements of `s` that satisfy `p`. */
  function Count<T(!new)>(s: seq<T>, p: T -> bool): nat {
    |Filter(s, p)|
  }

  /** Filtering twice keeps exactly what one filter on the conjunction keeps. */
  lemma {:induction false} FilterFilter<T(!new)>(s: seq<T>, p: T -> bool, q: T -> bool)
    ensures Filter(Filter(s, p), q) == Filter(s, x => p(x) && q(x))
  {
    if s != [] {
      FilterFilter(s[1..], p, q);
    }
  }

  /** Counting `q` over `s` filtered by `p` counts the conjunction `r` over `s`. */
  lemma CountOfFilter<T(!new)>(s: seq<T>, p: T -> bool, q: T -> bool, r: T -> bool)
    requires forall x :: r(x) == (p(x) && q(x))
    ensures Count(Filter(s, p), q) == Count(s, r)
  {
    FilterFilter(s, p, q);
    CountAgree(s, x => p(x) && q(x), r);
  }

  /** The count of elements satisfying `p` depends only on the multiset of `s`. */
  lemma CountOfPermutation<T(!new)>(a: seq<T>, b: seq<T>, p: T -> bool)
    requires multiset(a) == multiset(b)
    ensures Count(a, p) == Count(b, p)
  {
    var fa, fb := Filter(a, p), Filter(b, p);
    assert multiset(fa) == multiset(fb) by {
      forall x ensures multiset(fa)[x] == multiset(fb)[x] { }
    }
    assert |fa| == |multiset(fa)| == |multiset(fb)| == |fb|;
  }

  /** Counting over a sequence with one more element in front. */
  lemma CountCons<T(!new)>(x: T, s: seq<T>, p: T -> bool)
    ensures Count([x] + s, p) == (if p(x) then 1 else 0) + Count(s, p)
  {
    assert ([x] + s)[1..] == s;
  }

  /** Predicates that agree on the elements of `s` count the same. */
  lemma {:induction false} CountAgree<T(!new)>(s: seq<T>, p: T -> bool, q: T -> bool)
    requires forall x :: x in s ==> p(x) == q(x)
    ensures Count(s, p) == Count(s, q)
  {
    if s != [] {
      assert s == [s[0]] + s[1..];
      CountCons(s[0], s[1..], p);
      CountCons(s[0], s[1..], q);
      CountAgree(s[1..], p, q);
    }
  }

  /** A run of positions `lo..hi` whose elements all satisfy `p` contributes
      at least `hi - lo` to the count. */
  lemma {:induction false} CountAtLeastRun<T(!new)>(s: seq<T>, p: T -> bool, lo: nat, hi: nat)
    requires lo <= hi <= |s|
    requires forall i :: lo <= i < hi ==> p(s[i])
    ensures Count(s, p) >= hi - lo
  {
    if lo == hi {
    } else if lo > 0 {
      CountAtLeastRun(s[1..], p, lo - 1, hi - 1);
    } else {
      assert p(s[0]);
      CountAtLeastRun(s[1..], p, 0, hi - 1);
    }
  }

  /** pandas `head(n)`: the first `n` elements, or all of them when fewer. */
  function Take<T>(s: seq<T>, n: nat): (r: seq<T>)
    ensures |r| <= n
    ensures |r| == if |s| <= n then |s| else n
    ensures r <= s
  {
    if |s| <= n then s else s[..n]
  }

  /** `p` occurs in `s` starting at position `i`. */
  predicate OccursAt(s: string, p: string, i: int) {
    0 <= i && i + |p| <= |s| && s[i..i + |p|] == p
  }

  /** Substring test, scanning `s` from the left. */
  function Contains(s: string, p: string): bool {
    if p <= s then true
    else if s == [] then false
    else Contains(s[1..], p)
  }

  /** `Contains` finds `p` exactly when it occurs somewhere in `s`. */
  lemma {:induction false} ContainsIffOccurs(s: string, p: string)
    ensures Contains(s, p) <==> exists i :: OccursAt(s, p, i)
  {
    if p <= s {
      assert OccursAt(s, p, 0);
    } else if s == [] {
    } else {
      ContainsIffOccurs(s[1..], p);
      if exists i :: OccursAt(s, p, i) {
        var i :| OccursAt(s, p, i);
        if i > 0 {
          assert s[1..][i - 1..i - 1 + |p|] == s[i..i + |p|];
          assert OccursAt(s[1..], p, i - 1);
        }
      }
      if exists j :: OccursAt(s[1..], p, j) {
        var j :| OccursAt(s[1..], p, j);
        assert s[1..][j..j + |p|] == s[j + 1..j + 1 + |p|];
        assert OccursAt(s, p, j + 1);
      }
    }
  }
}

=== FILE: sorting.dfy ===
/** Stable insertion sort by a caller-chosen total preorder, used both for the
    median of a column and for the ranking of streets. */
module Sorting {

  /** `le` is total and transitive: a ranking in which every two elements compare. */
  ghost predicate TotalPreorder<T(!new)>(le: (T, T) -> bool) {
    && (forall a, b :: le(a, b) || le(b, a))
    && (forall a, b, c :: le(a, b) && le(b, c) ==> le(a, c))
  }

  /** Every earlier element comes at or before every later one. */
  ghost predicate SortedBy<T>(s: seq<T>, le: (T, T) -> bool) {
    forall i, j :: 0 <= i < j < |s| ==> le(s[i], s[j])
  }

  /** Inserts `x` before the first element it comes at or before. */
  function Insert<T>(x: T, s: seq<T>, le: (T, T) -> bool): (r: seq<T>)
    ensures |r| == |s| + 1
    ensures multiset(r) == multiset(s) + multiset{x}
  {
    if s == [] then [x]
    else if le(x, s[0]) then [x] + s
    else
      assert s == [s[0]] + s[1..];
      [s[0]] + Insert(x, s[1..], le)
  }

  /** The elements of `s`, reordered by `le`. */
  function SortBy<T>(s: seq<T>, le: (T, T) -> bool): (r: seq<T>)
    ensures |r| == |s|
    ensures multiset(r) == multiset(s)
  {
    if s == [] then []
    else
      assert s == [s[0]] + s[1..];
      Insert(s[0], SortBy(s[1..], le), le)
  }

  lemma {:induction false} InsertSorted<T(!new)>(x: T, s: seq<T>, le: (T, T) -> bool)
    requires TotalPreorder(le)
    requires SortedBy(s, le)
    ensures SortedBy(Insert(x, s, le), le)
  {
    if s == [] {
    } else if le(x, s[0]) {
      var r := [x] + s;
      forall i, j | 0 <= i < j < |r| ensures le(r[i], r[j]) {
        if i == 0 && j > 1 {
          assert le(s[0], s[j - 1]);
        }
      }
    } else {
      assert le(s[0], x);
      var rest := Insert(x, s[1..], le);
      InsertSorted(x, s[1..], le);
      forall j | 0 <= j < |rest| ensures le(s[0], rest[j]) {
        assert rest[j] in multiset(rest);
        if rest[j] != x {
          assert rest[j] in multiset(s[1..]);
          var k :| 0 <= k < |s[1..]| && s[1..][k] == rest[j];
          assert s[k + 1] == rest[j];
        }
      }
    }
  }

  /** `SortBy` produces a sequence ordered by `le`. */
  lemma {:induction false} SortBySorted<T(!new)>(s: seq<T>, le: (T, T) -> bool)
    requires TotalPreorder(le)
    ensures SortedBy(SortBy(s, le), le)
  {
    if s != [] {
      SortBySorted(s[1..], le);
      InsertSorted(s[0], SortBy(s[1..], le), le);
    }
  }
}

=== FILE: stats.dfy ===
/** pandas' `median` and `mean` over the numbers of a column: NaN when there
    are none, the middle value (or the average of the two middle values)
    otherwise. */
module Stats {
  import opened Values
  import Seqs
  import Sorting

  /** Ascending order on reals. */
  function Ascending(): (real, real) -> bool {
    (a: real, b: real) => a <= b
  }

  lemma AscendingIsTotalPreorder()
    ensures Sorting.TotalPreorder(Ascending())
  {
  }

  function Median(xs: seq<real>): (m: Value)
    ensures m.NaN? <==> xs == []
    ensures !m.None?
  {
    if xs == [] then NaN
    else
      var s := Sorting.SortBy(xs, Ascending());
      var k := |s| / 2;
      if |s| % 2 == 1 then Num(s[k]) else Num((s[k - 1] + s[k]) / 2.0)
  }

  /** Number of values at most / at least `m`. */
  function CountAtMost(xs: seq<real>, m: real): nat {
    Seqs.Count(xs, (x: real) => x <= m)
  }

  function CountAtLeast(xs: seq<real>, m: real): nat {
    Seqs.Count(xs, (x: real) => x >= m)
  }

  /** The sorted copy of `xs` the median is read from, with its order and
      contents spelled out on reals. */
  lemma MedianOfSorted(xs: seq<real>) returns (s: seq<real>)
    requires xs != []
    ensures |s| == |xs|
    ensures forall i, j :: 0 <= i < j < |s| ==> s[i] <= s[j]
    ensures multiset(s) == multiset(xs)
    ensures Median(xs).Num?
    ensures |s| % 2 == 1 ==> Median(xs).v == s[|s| / 2]
    ensures |s| % 2 == 0 ==> Median(xs).v == (s[|s| / 2 - 1] + s[|s| / 2]) / 2.0
  {
    s := Sorting.SortBy(xs, Ascending());
    AscendingIsTotalPreorder();
    Sorting.SortBySorted(xs, Ascending());
  }

  lemma AtMostPrefix(s: seq<real>, m: real, hi: nat)
    requires hi <= |s|
    requires forall i :: 0 <= i < hi ==> s[i] <= m
    ensures CountAtMost(s, m) >= hi
  {
    Seqs.CountAtLeastRun(s, (x: real) => x <= m, 0, hi);
  }

  lemma AtLeastSuffix(s: seq<real>, m: real, lo: nat)
    requires lo <= |s|
    requires forall i :: lo <= i < |s| ==> s[i] >= m
    ensures CountAtLeast(s, m) >= |s| - lo
  {
    Seqs.CountAtLeastRun(s, (x: real) => x >= m, lo, |s|);
  }

  lemma CountsOfPermutation(a: seq<real>, b: seq<real>, m: real)
    requires multiset(a) == multiset(b)
    ensures CountAtMost(a, m) == CountAtMost(b, m)
    ensures CountAtLeast(a, m) == CountAtLeast(b, m)
  {
    Seqs.CountOfPermutation(a, b, (x: real) => x <= m);
    Seqs.CountOfPermutation(a, b, (x: real) => x >= m);
  }

  /** In an ascending sequence, every value up to one at most `m` is at most `m`. */
  lemma SortedBelow(s: seq<real>, m: real, a: nat)
    requires a < |s|
    requires forall i, j :: 0 <= i < j < |s| ==> s[i] <= s[j]
    requires s[a] <= m
    ensures CountAtMost(s, m) >= a + 1
  {
    forall i | 0 <= i < a + 1 ensures s[i] <= m {
      if i < a { assert s[i] <= s[a]; }
    }
    AtMostPrefix(s, m, a + 1);
  }

  /** In an ascending sequence, every value from one at least `m` on is at least `m`. */
  lemma SortedAbove(s: seq<real>, m: real, b: nat)
    requires b < |s|
    requires forall i, j :: 0 <= i < j < |s| ==> s[i] <= s[j]
    requires m <= s[b]
    ensures CountAtLeast(s, m) >= |s| - b
  {
    forall i | b <= i < |s| ensures s[i] >= m {
      if b < i { assert s[b] <= s[i]; }
    }
    AtLeastSuffix(s, m, b);
  }

  /** In an ascending sequence, the middle value (or the average of the two
      middle values) has half of the sequence on either side. */
  lemma SortedSplits(s: seq<real>, m: real)
    requires s != []
    requires forall i, j :: 0 <= i < j < |s| ==> s[i] <= s[j]
    requires |s| % 2 == 1 ==> m == s[|s| / 2]
    requires |s| % 2 == 0 ==> m == (s[|s| / 2 - 1] + s[|s| / 2]) / 2.0
    ensures 2 * CountAtMost(s, m) >= |s|
    ensures 2 * CountAtLeast(s, m) >= |s|
  {
    var k := |s| / 2;
    if |s| % 2 == 1 {
      SortedBelow(s, m, k);
      SortedAbove(s, m, k);
    } else {
      assert s[k - 1] <= s[k];
      SortedBelow(s, m, k - 1);
      SortedAbove(s, m, k);
    }
  }

  /** The defining property of a median: at least half of the values lie at or
      below it and at least half at or above it. */
  lemma MedianSplitsValues(xs: seq<real>)
    requires xs != []
    ensures 2 * CountAtMost(xs, Median(xs).v) >= |xs|
    ensures 2 * CountAtLeast(xs, Median(xs).v) >= |xs|
  {
    var s := MedianOfSorted(xs);
    var m := Median(xs).v;
    SortedSplits(s, m);
    CountsOfPermutation(s, xs, m);
  }

  /** The median lies between two of the values. */
  lemma MedianBetweenValues(xs: seq<real>)
    requires xs != []
    ensures exists i :: 0 <= i < |xs| && xs[i] <= Median(xs).v
    ensures exists j :: 0 <= j < |xs| && Median(xs).v <= xs[j]
  {
    var s := MedianOfSorted(xs);
    var k, m := |s| / 2, Median(xs).v;
    var lo := if |s| % 2 == 1 then s[k] else s[k - 1];
    assert lo <= m <= s[k];
    assert lo in multiset(s) && s[k] in multiset(s);
    assert lo in xs && s[k] in xs;
  }

  /** Values confined to `[lo, hi]` have their median in `[lo, hi]`. */
  lemma MedianWithin(xs: seq<real>, lo: real, hi: real)
    requires xs != []
    requires forall i :: 0 <= i < |xs| ==> lo <= xs[i] <= hi
    ensures lo <= Median(xs).v <= hi
  {
    MedianBetweenValues(xs);
  }

  /** Positive values have a positive median. */
  lemma MedianPositive(xs: seq<real>)
    requires xs != []
    requires forall i :: 0 <= i < |xs| ==> xs[i] > 0.0
    ensures Median(xs).v > 0.0
  {
    MedianBetweenValues(xs);
  }

  function Sum(xs: seq<real>): real {
    if xs == [] then 0.0 else xs[0] + Sum(xs[1..])
  }

  function Mean(xs: seq<real>): (m: Value)
    ensures m.NaN? <==> xs == []
    ensures !m.None?
  {
    if xs == [] then NaN else Num(Sum(xs) / |xs| as real)
  }

  lemma {:induction false} SumWithin(xs: seq<real>, lo: real, hi: real)
    requires forall i :: 0 <= i < |xs| ==> lo <= xs[i] <= hi
    ensures |xs| as real * lo <= Sum(xs) <= |xs| as real * hi
  {
    if xs != [] {
      SumWithin(xs[1..], lo, hi);
    }
  }

  /** Values confined to `[lo, hi]` have their mean in `[lo, hi]`. */
  lemma MeanWithin(xs: seq<real>, lo: real, hi: real)
    requires xs != []
    requires forall i :: 0 <= i < |xs| ==> lo <= xs[i] <= hi
    ensures lo <= Mean(xs).v <= hi
  {
    SumWithin(xs, lo, hi);
    var n := |xs| as real;
    assert Sum(xs) / n * n == Sum(xs);
  }

  /** The median and mean of a coerced column. */
  function ColumnMedian(cells: seq<Cell>): (m: Value)
    ensures m.NaN? <==> forall i :: 0 <= i < |cells| ==> !cells[i].Number?
    ensures !m.None?
  {
    var xs := NumericValues(cells);
    NumericValuesEmpty(cells);
    Median(xs)
  }

  function ColumnMean(cells: seq<Cell>): (m: Value)
    ensures m.NaN? <==> forall i :: 0 <= i < |cells| ==> !cells[i].Number?
    ensures !m.None?
  {
    var xs := NumericValues(cells);
    NumericValuesEmpty(cells);
    Mean(xs)
  }
}

=== FILE: tax.dfy ===
/** The three illustrative tax and fee estimates (utils/tax.py). Areas are in
    m², unit prices in million VND per m², transfer prices in billion VND, and
    every result in million VND. Each rate has the source's default and may be
    overridden by the caller. */
module Tax {

  const RegistrationRate: real := 0.005
  const LandTaxRate: real := 0.0003
  const PitRate: real := 0.02

  /** Million VND in one billion VND. */
  const MillionsPerBillion: real := 1000.0

  /** Converts billion VND to million VND. */
  function BillionsToMillions(billions: real): (millions: real)
    ensures millions / MillionsPerBillion == billions
  {
    billions * MillionsPerBillion
  }

  /** Registration fee on land: area × government unit price × rate. */
  function RegistrationFeeLand(area: real, govPrice: real, rate: real := RegistrationRate): (fee: real)
    ensures area >= 0.0 && govPrice >= 0.0 && rate >= 0.0 ==> fee >= 0.0
    ensures fee == 0.0 <==> area == 0.0 || govPrice == 0.0 || rate == 0.0
    ensures area != 0.0 && rate != 0.0 ==> fee / (area * rate) == govPrice
  {
    area * govPrice * rate
  }

  /** Simplified annual non-agricultural land-use tax: the same formula as the
      registration fee, with its own default rate. */
  function NonAgriLandTax(area: real, govPrice: real, rate: real := LandTaxRate): (tax: real)
    ensures area >= 0.0 && govPrice >= 0.0 && rate >= 0.0 ==> tax >= 0.0
    ensures tax == 0.0 <==> area == 0.0 || govPrice == 0.0 || rate == 0.0
    ensures area != 0.0 && rate != 0.0 ==> tax / (area * rate) == govPrice
  {
    area * govPrice * rate
  }

  /** Personal income tax on a transfer: the price converted to million VND,
      times the rate. There is no "not provided" result: a price of 0 gives 0. */
  function PitTransferTax(transferBillions: real, rate: real := PitRate): (tax: real)
    ensures transferBillions >= 0.0 && rate >= 0.0 ==> tax >= 0.0
    ensures tax == 0.0 <==> transferBillions == 0.0 || rate == 0.0
    ensures rate != 0.0 ==> tax / rate / MillionsPerBillion == transferBillions
  {
    BillionsToMillions(transferBillions) * rate
  }

  /** With the same rate the two land formulas agree. */
  lemma SameFormula(area: real, govPrice: real, rate: real)
    ensures RegistrationFeeLand(area, govPrice, rate) == NonAgriLandTax(area, govPrice, rate)
  {
  }

  /** Worked values at the default rates. */
  lemma DefaultRateExamples()
    ensures RegistrationFeeLand(80.0, 50.0) == 20.0
    ensures NonAgriLandTax(80.0, 50.0) == 1.2
    ensures PitTransferTax(2.0) == 40.0
    ensures PitTransferTax(0.0) == 0.0
  {
  }

  /** For a non-negative price and rate, the fee grows with the area and scales
      linearly with it. */
  lemma RegistrationFeeLinearInArea(a1: real, a2: real, k: real, govPrice: real, rate: real)
    requires govPrice >= 0.0 && rate >= 0.0
    ensures a1 <= a2 ==> RegistrationFeeLand(a1, govPrice, rate) <= RegistrationFeeLand(a2, govPrice, rate)
    ensures RegistrationFeeLand(k * a1, govPrice, rate) == k * RegistrationFeeLand(a1, govPrice, rate)
    ensures RegistrationFeeLand(a1 + a2, govPrice, rate)
         == RegistrationFeeLand(a1, govPrice, rate) + RegistrationFeeLand(a2, govPrice, rate)
  {
    var c := govPrice * rate;
    assert c >= 0.0;
    assert RegistrationFeeLand(a1, govPrice, rate) == a1 * c;
    assert RegistrationFeeLand(a2, govPrice, rate) == a2 * c;
    assert RegistrationFeeLand(k * a1, govPrice, rate) == k * a1 * c;
    if a1 <= a2 {
      var d := a2 - a1;
      assert d * c >= 0.0;
      assert a2 * c == a1 * c + d * c;
    }
  }

  lemma LandTaxLinearInArea(a1: real, a2: real, k: real, govPrice: real, rate: real)
    requires govPrice >= 0.0 && rate >= 0.0
    ensures a1 <= a2 ==> NonAgriLandTax(a1, govPrice, rate) <= NonAgriLandTax(a2, govPrice, rate)
    ensures NonAgriLandTax(k * a1, govPrice, rate) == k * NonAgriLandTax(a1, govPrice, rate)
    ensures NonAgriLandTax(a1 + a2, govPrice, rate)
         == NonAgriLandTax(a1, govPrice, rate) + NonAgriLandTax(a2, govPrice, rate)
  {
    SameFormula(a1, govPrice, rate);
    SameFormula(a2, govPrice, rate);
    SameFormula(k * a1, govPrice, rate);
    SameFormula(a1 + a2, govPrice, rate);
    RegistrationFeeLinearInArea(a1, a2, k, govPrice, rate);
  }
}

=== FILE: values.dfy ===
/** Spreadsheet cells and the Python scalars the pages derive from them. */
module Values {

  /** One cell of the listings sheet. `Number` stands for every cell that
      numeric coercion accepts (a number, or text spelling one); `Text` for any
      other text; `Empty` for a missing cell. */
  datatype Cell = Empty | Text(s: string) | Number(x: real)

  /** A scalar as the pages handle it: Python's `None` (a column that is not
      there, a value left undefined), a float NaN (a median over no numbers),
      or a number. `None` and `NaN` are different: `is not None` holds of NaN. */
  datatype Value = None | NaN | Num(v: real) {

    /** pandas `notna`: neither `None` nor NaN. */
    predicate NotNA() {
      Num?
    }
  }

  /** `pd.to_numeric(..., errors="coerce")` on one cell: non-numbers become NaN
      instead of raising, and a number keeps its value. */
  function Coerce(c: Cell): (v: Value)
    ensures !v.None?
    ensures v.Num? <==> c.Number?
    ensures v.Num? ==> c == Number(v.v)
  {
    if c.Number? then Num(c.x) else NaN
  }

  /** The numbers of a coerced column in row order, NaNs skipped (what pandas'
      `median` and `mean` aggregate over). */
  function NumericValues(cells: seq<Cell>): (xs: seq<real>)
    ensures |xs| <= |cells|
    ensures forall x :: x in xs <==> Number(x) in cells
    ensures forall x {:trigger multiset(xs)[x]} :: multiset(xs)[x] == multiset(cells)[Number(x)]
  {
    if cells == [] then []
    else
      assert cells == [cells[0]] + cells[1..];
      if cells[0].Number? then [cells[0].x] + NumericValues(cells[1..])
      else NumericValues(cells[1..])
  }

  /** A column contributes no numbers exactly when none of its cells is numeric. */
  lemma NumericValuesEmpty(cells: seq<Cell>)
    ensures NumericValues(cells) == [] <==> forall i :: 0 <= i < |cells| ==> !cells[i].Number?
  {
    if NumericValues(cells) != [] {
      assert NumericValues(cells)[0] in NumericValues(cells);
    }
  }

  /** Coercion distributes over concatenation of columns. */
  lemma {:induction false} NumericValuesAppend(a: seq<Cell>, b: seq<Cell>)
    ensures NumericValues(a + b) == NumericValues(a) + NumericValues(b)
  {
    if a == [] {
      assert a + b == b;
    } else {
      assert (a + b)[1..] == a[1..] + b;
      NumericValuesAppend(a[1..], b);
    }
  }

  /** A non-numeric or missing cell anywhere in a column changes nothing that is
      aggregated over it. */
  lemma NonNumericCellIgnored(a: seq<Cell>, c: Cell, b: seq<Cell>)
    requires !c.Number?
    ensures NumericValues(a + [c] + b) == NumericValues(a + b)
  {
    NumericValuesAppend(a + [c], b);
    NumericValuesAppend(a, [c]);
    NumericValuesAppend(a, b);
    assert NumericValues([c]) == [];
  }
}
